=== FILE: README.md ===
# CLI to-do tracker, modelled in Dafny

The tracker keeps an ordered list of task records `{id, description, status}` in
`tasks.json`. The status is one of `incomplete`, `in progress` or `complete`. One
invocation does four things in order:

1. It loads the file.
2. It renumbers the ids from the records' positions.
3. It runs one command.
4. If the command mutates the list, or is `export`, it exports: it renumbers again and writes `{"tasks": [...]}`.

There are two versions of the tool, and the model covers both:

- `__main__.py` takes a positional subcommand (`add`, `complete 2`, `-lc`, ...). It checks its
  arguments and loads leniently.
- `todoi.py` is the older argparse version. It has the same record operations, no argument
  checks, a loader that insists on `{"tasks": ...}`, and a fixed priority among its flags.

Every handler is a pure function from the loaded list and its arguments to
`Result<Change, Error>`, or to a bare `Change` where the handler cannot fail. A `Change` is the exported list plus the number its confirmation
line shows. Python's exceptions become `Error` constructors.

Modules:

- `Results` (results.dfy) defines `Option` and `Result`.
- `PyText` (pytext.dfy) defines the Python built-ins the code relies on. These are
  `str.isdigit`, `int()`, `str()` and list subscripts, where negative subscripts count from
  the end.
- `Tasks` (tasks.dfy) holds the record, the id invariant `WellNumbered`, `update_tasks_id`,
  and the positional edits both versions share: append, write a field, pop, filter by status.
- `Store` (store.dfy) holds the parsed file as an abstract `Json`, `export_tasks` as `Save`,
  and the reply of one invocation.
- `Cli` (cli.dfy) models `__main__.py`.
- `Legacy` (legacy.dfy) models `todoi.py`.
- `Agreement` (agreement.dfy) states where the two versions agree and where they differ.

The model follows the code as written, including behaviour a user would not expect:

- `add ""` is accepted.
- Index `0` passes both checks of `__main__.py` and selects the last task.
- `update` in `__main__.py` can never succeed.
- In `__main__.py`, an unreadable or oddly shaped file becomes an empty list with a printed
  notice, not an error. `todoi.py` raises instead.
- `todoi.py` accepts negative indices and zero, and reads them as Python subscripts.

## Model

| member | source | states |
|---|---|---|
| Tasks.Renumber | todoi.py:26-28 | after renumbering, every id is its 1-based position; the length and every description and status are unchanged |
| Tasks.UpdateTasksId | __main__.py:40-42 | the in-place loop over positions establishes the id invariant, keeps the content, and yields the same list as `Renumber` |
| Tasks.RenumberUnique | __main__.py:40-42 | a list that keeps the id invariant and has the same content as the input is the renumbered list, so the invariant plus content determine it |
| Tasks.RenumberKeepsWellNumbered | __main__.py:123-124 | exporting a list that already keeps the id invariant changes nothing |
| Tasks.Append | __main__.py:74-77 | appending adds one task with id = old length + 1 and status incomplete, keeps every earlier task, and preserves the id invariant |
| Tasks.SetStatusAt | __main__.py:90-91 | writing a status changes only that field of that one element; ids, descriptions, other statuses and the length are unchanged |
| Tasks.SetDescriptionAt | todoi.py:123-126 | writing a description changes only that field of that one element |
| Tasks.RemoveAt | __main__.py:157-158 | popping removes one element: earlier elements keep their places, later ones shift down by one, and the length drops by one |
| Tasks.RemoveAtUndone | todoi.py:117-118 | putting the popped element back at its index restores the original list |
| Tasks.ReinsertKeepsContent | todoi.py:117-118 | whatever list holds the content left after popping index k gets back the original content when the popped task is put back at k |
| Tasks.StatusTextInjective | __main__.py:180-190 | the three status texts are distinct, so the listings' string comparison selects exactly one status |
| Store.AsSaved | __main__.py:92 | a handler's change becomes the saved reply and its error passes through unchanged |
| Tasks.Filter | __main__.py:178-191 | the listing holds exactly the tasks with the requested status: each listed task comes from the list and has that status, and every such task is listed |
| Tasks.FilterAppend | __main__.py:179-181 | filtering distributes over concatenation, so the listing keeps list order |
| Tasks.FilterPartition | __main__.py:178-191 | the three status listings together hold every task exactly once, counted by length |
| Tasks.FilterCountIgnoresIds | __main__.py:123-124 | renumbering on export does not change how many tasks any status listing shows |
| Tasks.FilterAfterSetStatus | __main__.py:104-105 | setting a status puts the task in that status's listing; the listing grows by one unless the task already had that status |
| PyText.IsDigits | __main__.py:86 | `isdigit` holds exactly when the text is non-empty, starts with a digit and continues with digits only; a text starting with a sign is never accepted |
| PyText.DigitsValue | __main__.py:88 | `int` of a digit string is its decimal value, which is below 10 to the power of its length |
| PyText.LeadingZeroIgnored | __main__.py:88 | a leading zero does not change the value that `int` reads |
| PyText.NatText | __main__.py:79 | `str` of a natural number is a digit string with no leading zero, unless the number is 0 |
| PyText.IntText | todoi.py:117 | `str` of an integer is non-empty and starts with '-' exactly when the integer is negative; the rest is a digit string |
| PyText.NatTextRoundTrip | __main__.py:86-90 | `int` of the decimal text `str` writes for n is n again |
| PyText.ParseInt | todoi.py:89 | `int()` succeeds exactly on digits, optionally after one '+' or '-' sign; digits read as their decimal value, a '-' sign negates it and a '+' sign keeps it; every other string is rejected (ValueError) |
| PyText.IntTextRoundTrip | todoi.py:117 | `int(str(i)) == i`, stated in the model for every integer; Python agrees only while the decimal text has at most 4300 digits |
| PyText.PyIndex | todoi.py:117-118 | a subscript is valid exactly when -len <= i < len, a non-negative i denotes position i, and a negative i denotes the (-i)-th element from the end |
| Store.Save | __main__.py:123-126 | the export writes an object whose "tasks" field keeps the id invariant and the content of the in-memory list |
| Cli.Load | __main__.py:128-146 | a bare list, or the "tasks" field of an object, becomes the task list with no notice; any other shape or a parse failure gives an empty list and a notice, and a parse failure is the only case with the parse notice |
| Cli.SaveThenLoad | __main__.py:123-137 | what the export writes loads back as the renumbered list with the same content and no notice |
| Cli.BothShapesLoadAlike | __main__.py:134-137 | a bare array and the same array under "tasks" load to identical lists |
| Cli.AddTask | __main__.py:69-79 | with no argument it fails with "No description provided."; otherwise it appends one incomplete task carrying the first argument, even an empty one, with id = old length + 1, keeps the earlier content, and reports that id |
| Cli.AddKeepsEarlierTasks | __main__.py:73-78 | on a list that keeps the id invariant, add leaves every earlier record exactly as it was |
| Cli.ResolveIndex | __main__.py:82-90 | the checks run in order: missing argument, non-digit argument, then value > length; an index is accepted exactly when it is a digit string with value <= length on a non-empty list; "0" selects the last task and fails with IndexError on an empty list |
| Cli.MarkStatus | __main__.py:81-121 | a status command fails exactly when the index checks fail, with the same error; on success only the status of the selected element changes, the result keeps the id invariant, and the confirmation shows `int(arg)` |
| Cli.ZeroSelectsLastTask | __main__.py:86-93 | on a non-empty list, index "0" marks the last task and confirms "Task 0" |
| Cli.MarkStatusIdempotent | __main__.py:81-93 | repeating a status command with the same index changes nothing further |
| Cli.MarkStatusListing | __main__.py:118-119 | after a successful status command, that status's listing holds one more task, unless the task already had that status |
| Cli.RemoveTask | __main__.py:148-160 | remove uses the same checks and errors as the status commands; on success the length drops by one, the rest keep their order, and the reported id is the popped record's id from before the export |
| Cli.AddThenRemove | __main__.py:155-160 | adding a task and then removing it by the id add reported restores the list and reports that id |
| Cli.UpdateTask | __main__.py:162-176 | update never succeeds: it raises "No index provided." without an argument, and with any argument it raises AttributeError, because `isdigit` is called on the argument list |
| Cli.ResolveIndexStrict | __main__.py:164-171 | the corrected index check accepts exactly digit strings with 1 <= value <= length, and selects value - 1 |
| Cli.UpdateIntended | __main__.py:162-176 | the corrected update changes only the description of the selected task, keeps the id invariant, and confirms with that task's id |
| Cli.CommandNamed | __main__.py:204-229 | a recognised name is the long name or the short alias of the command it selects; a name matching no command's two names selects nothing |
| Cli.NamesSelectTheirCommand | __main__.py:26-27 | each of the twelve long names and twelve aliases selects its own command, so no name is shared |
| Cli.Handle | __main__.py:204-227 | each command runs its own handler: add, remove and the three marks run their handlers with that status; list shows the whole list; each status listing shows that status's filter; export writes the renumbered list; help shows help; update runs its handler, which raises "No index provided." or AttributeError; written lists keep the id invariant and handlers never raise the dispatcher's errors |
| Cli.Dispatch | __main__.py:197-229 | a missing first argument gives IndexError and an empty one gives "No arguments provided."; "Invalid command." is raised exactly when the name is none of the 24 names; every list written back keeps the id invariant |
| Cli.DispatchRoutes | __main__.py:204-227 | either name of a command runs exactly that command's handler on the remaining arguments |
| Cli.Session | __main__.py:25-33 | no argument gives NoCommand, an empty command name gives NoArguments, and an unknown name gives InvalidCommand; otherwise the named command runs on the loaded list after renumbering; `list` shows that renumbered list, or an empty list when the file was unreadable or unexpected; a written list keeps the id invariant |
| Cli.SessionAddWrites | __main__.py:73-78 | an `add` run writes a "tasks" object holding the renumbered loaded list followed by the new incomplete task with the next id |
| Legacy.Load | todoi.py:111-114 | only an object with a "tasks" field loads, and it yields that field; an object without "tasks" fails with KeyError; a bare list or a scalar fails with TypeError; unparsable text fails with a decode error |
| Legacy.SaveThenLoad | todoi.py:106-114 | what the export writes loads back as the renumbered list |
| Legacy.FreshFileFailsToLoad | todoi.py:21-24 | the empty array written for a missing file is rejected by the loader |
| Legacy.FreshFileIntended | todoi.py:21-24 | the corrected initial file is what the export writes for an empty list, and it loads as the empty list |
| Legacy.ResolveIndex | todoi.py:89-90 | `int(arg) - 1` as a Python subscript: a non-integer fails with ValueError; an integer n is accepted exactly when -len < n <= len; any other integer fails with IndexError; n >= 1 selects n - 1, and n <= 0 counts from the end |
| Legacy.AddTask | todoi.py:77-83 | add appends one incomplete task with id = old length + 1, keeps the earlier content, preserves the id invariant, and reports that id |
| Legacy.MarkStatus | todoi.py:88-104 | a status command fails exactly as the subscript does; on success only the selected element's status changes and the confirmation shows `int(arg)` |
| Legacy.RemoveTask | todoi.py:116-120 | remove fails with ValueError when `int(arg)` does, and otherwise with IndexError exactly when -len < int(arg) <= len fails; on success it pops the selected element, the length drops by one, the rest keep their order, and it reports the popped record's id from before the export |
| Legacy.UpdateTask | todoi.py:122-128 | update replaces only the selected task's description with the typed text and confirms with that task's renumbered id |
| Legacy.UpdateUndone | todoi.py:122-128 | on a list that keeps the id invariant, updating a task and then typing its old description back restores the list exactly |
| Legacy.RemoveThenReinsert | todoi.py:116-118 | putting the removed task back at its index restores the content of the list |
| Legacy.Select | todoi.py:42-58 | the chosen action is the first one requested in the order add, list, remove, update, complete, incomplete, progress; help is chosen exactly when nothing is requested; an empty flag value counts as not given |
| Legacy.Execute | todoi.py:42-58 | each action runs its own handler: add appends, remove, update and each mark run their handlers on the flag's value, and mark uses its own status; list shows the whole list; help shows help; written lists keep the id invariant; the only errors are ValueError and IndexError |
| Legacy.Session | todoi.py:11-19 | a load failure ends the run with that error whatever the flags say; otherwise the selected action runs on the renumbered loaded list, so list shows it, help shows help, and add appends one task with the given description after the loaded content; a written list keeps the id invariant |
| Agreement.LoadersAgreeOnSavedFiles | todoi.py:111-114 | on any file the export wrote, both loaders succeed with the same list |
| Agreement.IndicesAgree | todoi.py:89 | for 1 <= n <= length, both versions resolve `str(n)` to position n - 1 |
| Agreement.MarkAgrees | todoi.py:88-92 | on an in-range index, both versions' status commands succeed with identical results |
| Agreement.RemoveAgrees | todoi.py:116-120 | on an in-range index, both versions' remove commands succeed with identical results, including the reported id |
| Agreement.AddSessionsAgree | todoi.py:77-83 | for a non-empty description, a whole `add` run on a saved file gives the same reply in both versions |
| Agreement.EmptyAddDiffers | todoi.py:42-58 | an empty description: the newer version appends a task, and the older one treats the empty flag as unset and shows help |
| Agreement.NegativeIndexDiffers | todoi.py:117-118 | index "-1" selects the second-to-last task in the older version and is rejected as a non-integer in the newer one |

## Left out

- Interpreter version: the model assumes Python 3.12 or later. Both files nest double quotes inside an f-string (__main__.py:79, todoi.py:83), which earlier versions reject as a syntax error before any command runs.
- File I/O is not modelled. This covers `open`, `json.dump` and `json.load`. The loaded file is the abstract `Store.Json` and a write is `Store.Save`. `checkFile` appears only as the content it writes, `Store.FreshFile`.
- Store.Json abstracts records: a list in the file is already a list of `Task`. Records with missing fields, non-record items, status strings outside the three, and a "tasks" field that is not a list are not modelled.
- The `FileNotFoundError` branch of `read_from_file` in __main__.py is left out, because `checkFile` creates the file just before it.
- Console output is not modelled. This covers the confirmation and error texts, the listing table, "No tasks.", the help text, and the load notices' wording. Only the number a confirmation shows and the kind of each error are kept.
- The `input()` prompt of `update` is not modelled. The typed text is the parameter `newDescription`. `Cli.UpdateTask` has no such parameter, because its prompt is never reached.
- `sys.argv` is a parameter `argv`, meaning the arguments after the program name. argparse's own parsing, its errors and its built-in `-h` exit are not modelled; `Legacy.Flags` is the namespace it produces.
- `custom_excepthook` is not modelled. An escaping exception is the `Err` result.
- The dead `interpret_input` and `cmd_quit` in todoi.py are not modelled, because nothing calls them. `interpret_input` also reads attributes that are never set; `cmd_quit` only assigns `self.running`, which nothing reads.
- PyText.ParseInt: only an optional sign followed by ASCII digits is read. Python's `int()` also strips surrounding whitespace and accepts underscores and non-ASCII decimal digits. Python 3.11 and later also reject decimal text longer than 4300 digits with ValueError, and the model has no such limit. So for an index argument of more than 4300 digits, `Legacy.RemoveTask` and the other legacy handlers give IndexError where Python gives ValueError, and `Cli.ResolveIndex` gives "Index out of range." where Python's `int()` raises ValueError.
- Unicode digits: `isdigit` is modelled over ASCII digits only. Python's `isdigit` is also true for other Unicode digits, some of which `int()` then rejects.

## Findings

| source | as written | input that shows it | evidently intended | confidence | as-written member | corrected member |
|---|---|---|---|---|---|---|
| __main__.py:86-90 | the index checks reject non-digits and values above the length but not 0, and `int("0") - 1` is the subscript -1 | `complete 0` on a non-empty list marks the last task and prints "Task 0 marked as complete." | reject 0 as out of range, so that index n always means task n | high, not executed | Cli.ZeroSelectsLastTask | Cli.ResolveIndexStrict |
| __main__.py:166 | `self.args.isdigit()` runs before `self.args = self.args[0]`, on the argument list | `update 1` raises AttributeError, so update never changes a task | check `args[0]`, then replace the selected task's description | high, not executed | Cli.UpdateTask | Cli.UpdateIntended |
| todoi.py:21-24 | `checkFile` writes a bare `[]`, but `read_from_file` (todoi.py:114) subscripts the loaded value with "tasks" | the first run in a directory without tasks.json raises TypeError before any command | write `{"tasks": []}`, the shape the export writes | high, not executed | Legacy.FreshFileFailsToLoad | Legacy.FreshFileIntended |

The dispatchers (`Cli.Handle` and `Legacy.Session`) keep the code as written. The corrected members stand beside them, and their intended properties are proved.

=== FILE: agreement.dfy ===
/**
 * Where the two versions of the tracker agree and where they part: on a
 * file either one wrote and an index written as `str(n)` with
 * 1 <= n <= length they do the same thing; outside that range they differ.
 */
module Agreement {
  import opened Results
  import opened PyText
  import opened Tasks
  import opened Store
  import Cli
  import Legacy

  /** Both loaders read back any file `export_tasks` wrote as the same list. */
  lemma LoadersAgreeOnSavedFiles(ts: seq<Task>)
    ensures Cli.Load(Save(ts)).notice.None?
    ensures Legacy.Load(Save(ts)) == Ok(Cli.Load(Save(ts)).tasks)
  {
  }

  /** A 1-based index written by `str` resolves to the same position in both versions. */
  lemma {:induction false} IndicesAgree(tasks: seq<Task>, n: nat)
    requires 1 <= n <= |tasks|
    ensures Cli.ResolveIndex(tasks, [NatText(n)]) == Ok(n - 1)
    ensures Legacy.ResolveIndex(tasks, NatText(n)) == Ok(n - 1)
    ensures ParseInt(NatText(n)) == Some(n)
  {
    NatTextRoundTrip(n);
  }

  /** On an in-range index the three status commands agree. */
  lemma MarkAgrees(tasks: seq<Task>, n: nat, s: Status)
    requires 1 <= n <= |tasks|
    ensures Cli.MarkStatus(tasks, [NatText(n)], s).Ok? && Legacy.MarkStatus(tasks, NatText(n), s).Ok?
    ensures Cli.MarkStatus(tasks, [NatText(n)], s).value == Legacy.MarkStatus(tasks, NatText(n), s).value
  {
    IndicesAgree(tasks, n);
  }

  /** On an in-range index removal agrees, down to the id it reports. */
  lemma RemoveAgrees(tasks: seq<Task>, n: nat)
    requires 1 <= n <= |tasks|
    ensures Cli.RemoveTask(tasks, [NatText(n)]).Ok? && Legacy.RemoveTask(tasks, NatText(n)).Ok?
    ensures Cli.RemoveTask(tasks, [NatText(n)]).value == Legacy.RemoveTask(tasks, NatText(n)).value
  {
    IndicesAgree(tasks, n);
  }

  /** A whole `add` run on a saved file gives the same reply in both versions. */
  lemma AddSessionsAgree(ts: seq<Task>, d: string, typed: string)
    requires d != ""
    ensures var flags := Legacy.Flags(Some(d), false, None, None, None, None, None);
      && Cli.Session(Save(ts), ["add", d]).Ok?
      && Legacy.Session(Save(ts), flags, typed).Ok?
      && Cli.Session(Save(ts), ["add", d]).value == Legacy.Session(Save(ts), flags, typed).value
  {
    Cli.DispatchRoutes(Renumber(Renumber(ts)), ["add", d], Cli.Add);
    assert ["add", d][1..] == [d];
  }

  /** An empty description: the newer version adds a task, the older one treats the flag as unset and shows help. */
  lemma EmptyAddDiffers(ts: seq<Task>, typed: string)
    ensures var flags := Legacy.Flags(Some(""), false, None, None, None, None, None);
      && Legacy.Session(Save(ts), flags, typed) == Ok(HelpShown)
      && Cli.Session(Save(ts), ["add", ""]).Ok?
      && Cli.Session(Save(ts), ["add", ""]).value.Saved?
  {
    Cli.DispatchRoutes(Renumber(Renumber(ts)), ["add", ""], Cli.Add);
  }

  /** A negative index: the older version counts from the end, the newer one rejects it. */
  lemma NegativeIndexDiffers(tasks: seq<Task>)
    requires |tasks| >= 2
    ensures Legacy.ResolveIndex(tasks, "-1") == Ok(|tasks| - 2)
    ensures Cli.ResolveIndex(tasks, ["-1"]) == Err(Cli.NotAnInteger)
  {
    assert !IsAsciiDigit("-1"[0]);
    assert "-1"[1..] == "1";
    assert DigitsValue("1") == 1 by {
      assert "1"[..0] == "";
    }
  }
}

=== FILE: cli.dfy ===
/**
 * The positional-subcommand tracker, __main__.py: one invocation loads
 * tasks.json, renumbers the list, and runs the single command named by
 * its first argument.
 */
module Cli {
  import opened Results
  import opened PyText
  import opened Tasks
  import opened Store

  /** The exceptions a command raises; the installed excepthook prints each as one line. */
  datatype Error =
    | NoDescription     // ValueError "No description provided."
    | NoIndex           // ValueError "No index provided."
    | NotAnInteger      // ValueError "Index must be an integer."
    | OutOfRange        // ValueError "Index out of range."
    | ListIndexError    // IndexError: subscript or pop at -1 on an empty list
    | NoIsdigitOnList   // AttributeError: 'list' object has no attribute 'isdigit'
    | NoArguments       // ValueError "No arguments provided."
    | NoCommand         // IndexError: sys.argv[1] does not exist
    | InvalidCommand    // ValueError "Invalid command."

  // ---------------------------------------------------------------- loading

  /** The line `read_from_file` prints when it falls back to an empty list. */
  datatype LoadNotice = UnexpectedFormat | CouldNotParse

  datatype Loaded = Loaded(tasks: seq<Task>, notice: Option<LoadNotice>)

  /**
   * `read_from_file`: a bare list or the "tasks" field of an object is the
   * task list; any other shape, or text that does not parse, gives an empty
   * list and a notice instead of an error.
   */
  function Load(j: Json): (r: Loaded)
    ensures r.notice.None? <==> j.JList? || (j.JObject? && j.tasksField.Some?)
    ensures r.notice == Some(CouldNotParse) <==> j.Unparsable?
    ensures r.notice.Some? ==> r.tasks == []
    ensures j.JList? ==> r.tasks == j.items
    ensures j.JObject? && j.tasksField.Some? ==> r.tasks == j.tasksField.value
  {
    match j
    case JList(items) => Loaded(items, None)
    case JObject(Some(ts)) => Loaded(ts, None)
    case JObject(None) => Loaded([], Some(UnexpectedFormat))
    case JOther => Loaded([], Some(UnexpectedFormat))
    case Unparsable => Loaded([], Some(CouldNotParse))
  }

  /** What `export_tasks` writes loads back as the renumbered list, without a notice. */
  lemma SaveThenLoad(ts: seq<Task>)
    ensures Load(Save(ts)) == Loaded(Renumber(ts), None)
    ensures SameContent(ts, Load(Save(ts)).tasks)
  {
  }

  /** A bare array and the same array under "tasks" load to the same list. */
  lemma BothShapesLoadAlike(ts: seq<Task>)
    ensures Load(JList(ts)) == Load(JObject(Some(ts)))
  {
  }

  // ---------------------------------------------------------------- handlers

  /** `cmd_add`: the first argument, even an empty one, becomes a new incomplete task. */
  function AddTask(tasks: seq<Task>, args: seq<string>): (r: Result<Change, Error>)
    ensures r.Err? <==> |args| == 0
    ensures r.Err? ==> r.error == NoDescription
    ensures r.Ok? ==>
      && |r.value.store| == |tasks| + 1
      && WellNumbered(r.value.store)
      && SameContent(tasks, r.value.store[..|tasks|])
      && r.value.store[|tasks|] == Task(|tasks| + 1, args[0], Incomplete)
      && r.value.confirmed == |tasks| + 1
  {
    if |args| == 0 then Err(NoDescription)
    else Ok(Change(Renumber(Append(tasks, args[0])), |tasks| + 1))
  }

  /** On a list that keeps the id invariant, adding leaves every earlier record exactly as it was. */
  lemma AddKeepsEarlierTasks(tasks: seq<Task>, d: string)
    requires WellNumbered(tasks)
    ensures AddTask(tasks, [d]) == Ok(Change(tasks + [Task(|tasks| + 1, d, Incomplete)], |tasks| + 1))
  {
    RenumberKeepsWellNumbered(Append(tasks, d));
  }

  /**
   * The index checks shared by `cmd_mark_*` and `cmd_remove`, in the order
   * they run, followed by Python's subscript at `int(arg) - 1`: "0" passes
   * both checks and denotes the last task.
   */
  function ResolveIndex(tasks: seq<Task>, args: seq<string>): (r: Result<nat, Error>)
    ensures |args| == 0 ==> r == Err(NoIndex)
    ensures |args| > 0 && !IsDigits(args[0]) ==> r == Err(NotAnInteger)
    ensures |args| > 0 && IsDigits(args[0]) && DigitsValue(args[0]) > |tasks| ==> r == Err(OutOfRange)
    ensures r == Err(ListIndexError) <==> |args| > 0 && IsDigits(args[0]) && DigitsValue(args[0]) == 0 && |tasks| == 0
    ensures r.Ok? <==> |args| > 0 && IsDigits(args[0]) && DigitsValue(args[0]) <= |tasks| && |tasks| > 0
    ensures r.Ok? ==> r.value == if DigitsValue(args[0]) == 0 then |tasks| - 1 else DigitsValue(args[0]) - 1
  {
    if |args| == 0 then Err(NoIndex)
    else if !IsDigits(args[0]) then Err(NotAnInteger)
    else if DigitsValue(args[0]) > |tasks| then Err(OutOfRange)
    else
      match PyIndex(|tasks|, DigitsValue(args[0]) - 1)
      case None => Err(ListIndexError)
      case Some(k) => Ok(k)
  }

  /**
   * `cmd_mark_complete`, `cmd_mark_incomplete`, `cmd_mark_progress`: write
   * status s at the resolved index, export, and confirm with `int(arg)`.
   */
  function MarkStatus(tasks: seq<Task>, args: seq<string>, s: Status): (r: Result<Change, Error>)
    ensures r.Ok? <==> ResolveIndex(tasks, args).Ok?
    ensures r.Err? ==> ResolveIndex(tasks, args) == Err(r.error)
    ensures r.Ok? ==>
      && WellNumbered(r.value.store)
      && OnlyStatusChanged(tasks, r.value.store, ResolveIndex(tasks, args).value, s)
      && r.value.confirmed == DigitsValue(args[0])
  {
    match ResolveIndex(tasks, args)
    case Err(e) => Err(e)
    case Ok(k) => Ok(Change(Renumber(SetStatusAt(tasks, k, s)), DigitsValue(args[0])))
  }

  /** "0" on a non-empty list marks the last task and confirms "Task 0". */
  lemma ZeroSelectsLastTask(tasks: seq<Task>, s: Status)
    requires |tasks| > 0
    ensures MarkStatus(tasks, ["0"], s) == Ok(Change(Renumber(SetStatusAt(tasks, |tasks| - 1, s)), 0))
  {
    assert DigitsValue("0") == 0 by {
      assert "0"[..0] == "";
    }
  }

  /** Marking twice with the same status is the same as marking once. */
  lemma MarkStatusIdempotent(tasks: seq<Task>, args: seq<string>, s: Status)
    requires MarkStatus(tasks, args, s).Ok?
    ensures MarkStatus(MarkStatus(tasks, args, s).value.store, args, s) == MarkStatus(tasks, args, s)
  {
    var k := ResolveIndex(tasks, args).value;
    var once := MarkStatus(tasks, args, s).value.store;
    assert SetStatusAt(once, k, s) == once;
    RenumberKeepsWellNumbered(once);
  }

  /** After a successful mark the status listing holds one more task, unless the task already had it. */
  lemma MarkStatusListing(tasks: seq<Task>, args: seq<string>, s: Status)
    requires MarkStatus(tasks, args, s).Ok?
    ensures var k := ResolveIndex(tasks, args).value;
      |Filter(MarkStatus(tasks, args, s).value.store, s)| == |Filter(tasks, s)| + (if tasks[k].status == s then 0 else 1)
  {
    var k := ResolveIndex(tasks, args).value;
    FilterAfterSetStatus(tasks, k, s);
    FilterCountIgnoresIds(SetStatusAt(tasks, k, s), MarkStatus(tasks, args, s).value.store, s);
  }

  /**
   * `cmd_remove`: pop the task at the resolved index, export the rest, and
   * confirm with the popped record's id from before the export.
   */
  function RemoveTask(tasks: seq<Task>, args: seq<string>): (r: Result<Change, Error>)
    ensures r.Ok? <==> ResolveIndex(tasks, args).Ok?
    ensures r.Err? ==> ResolveIndex(tasks, args) == Err(r.error)
    ensures r.Ok? ==>
      && |r.value.store| == |tasks| - 1
      && WellNumbered(r.value.store)
      && SameContent(RemoveAt(tasks, ResolveIndex(tasks, args).value), r.value.store)
      && r.value.confirmed == tasks[ResolveIndex(tasks, args).value].id
  {
    match ResolveIndex(tasks, args)
    case Err(e) => Err(e)
    case Ok(k) => Ok(Change(Renumber(RemoveAt(tasks, k)), tasks[k].id))
  }

  /** Adding a task and then removing it by the id `add` reported gives back the list and that id. */
  lemma AddThenRemove(tasks: seq<Task>, d: string)
    requires WellNumbered(tasks)
    ensures RemoveTask(AddTask(tasks, [d]).value.store, [NatText(|tasks| + 1)]) == Ok(Change(tasks, |tasks| + 1))
  {
    AddKeepsEarlierTasks(tasks, d);
    var added := tasks + [Task(|tasks| + 1, d, Incomplete)];
    NatTextRoundTrip(|tasks| + 1);
    assert ResolveIndex(added, [NatText(|tasks| + 1)]) == Ok(|tasks|);
    assert RemoveAt(added, |tasks|) == tasks;
    RenumberKeepsWellNumbered(tasks);
  }

  /**
   * `cmd_update`: with an argument, `isdigit` is called on the argument
   * list itself and raises before anything is read or changed, so the
   * command never succeeds.
   */
  function UpdateTask(tasks: seq<Task>, args: seq<string>): (r: Result<Change, Error>)
    ensures r.Err?
    ensures |args| == 0 ==> r == Err(NoIndex)
    ensures |args| > 0 ==> r == Err(NoIsdigitOnList)
  {
    if |args| == 0 then Err(NoIndex) else Err(NoIsdigitOnList)
  }

  /** The index check `cmd_update` evidently meant: like the others, but "0" is out of range. */
  function ResolveIndexStrict(tasks: seq<Task>, args: seq<string>): (r: Result<nat, Error>)
    ensures |args| == 0 ==> r == Err(NoIndex)
    ensures |args| > 0 && !IsDigits(args[0]) ==> r == Err(NotAnInteger)
    ensures r.Ok? <==> |args| > 0 && IsDigits(args[0]) && 1 <= DigitsValue(args[0]) <= |tasks|
    ensures r.Ok? ==> r.value < |tasks| && r.value + 1 == DigitsValue(args[0])
  {
    if |args| == 0 then Err(NoIndex)
    else if !IsDigits(args[0]) then Err(NotAnInteger)
    else if DigitsValue(args[0]) > |tasks| || DigitsValue(args[0]) == 0 then Err(OutOfRange)
    else Ok(DigitsValue(args[0]) - 1)
  }

  /**
   * `cmd_update` as evidently intended: check `args[0]`, replace that
   * task's description with the text typed at the prompt, export, and
   * confirm with the task's (renumbered) id.
   */
  function UpdateIntended(tasks: seq<Task>, args: seq<string>, newDescription: string): (r: Result<Change, Error>)
    ensures r.Ok? <==> ResolveIndexStrict(tasks, args).Ok?
    ensures r.Err? ==> ResolveIndexStrict(tasks, args) == Err(r.error)
    ensures r.Ok? ==>
      && WellNumbered(r.value.store)
      && OnlyDescriptionChanged(tasks, r.value.store, DigitsValue(args[0]) - 1, newDescription)
      && r.value.confirmed == DigitsValue(args[0])
  {
    match ResolveIndexStrict(tasks, args)
    case Err(e) => Err(e)
    case Ok(k) => Ok(Change(Renumber(SetDescriptionAt(tasks, k, newDescription)), k + 1))
  }

  // ---------------------------------------------------------------- dispatch

  /** The twelve commands of `create_parser`, in the order it tests them. */
  datatype Command =
    | Add | List | Remove | Update
    | MarkComplete | MarkIncomplete | MarkProgress
    | ListComplete | ListIncomplete | ListProgress
    | Export | Help

  function LongName(c: Command): string
  {
    match c
    case Add => "add"
    case List => "list"
    case Remove => "remove"
    case Update => "update"
    case MarkComplete => "complete"
    case MarkIncomplete => "incomplete"
    case MarkProgress => "progress"
    case ListComplete => "list-complete"
    case ListIncomplete => "list-incomplete"
    case ListProgress => "list-progress"
    case Export => "export"
    case Help => "help"
  }

  function ShortName(c: Command): string
  {
    match c
    case Add => "-a"
    case List => "-l"
    case Remove => "-r"
    case Update => "-u"
    case MarkComplete => "-c"
    case MarkIncomplete => "-i"
    case MarkProgress => "-p"
    case ListComplete => "-lc"
    case ListIncomplete => "-li"
    case ListProgress => "-lp"
    case Export => "-e"
    case Help => "-h"
  }

  /** The if/elif chain of `create_parser`: the command a name selects, if any. */
  function CommandNamed(name: string): (r: Option<Command>)
    ensures r.Some? ==> name == LongName(r.value) || name == ShortName(r.value)
    ensures r.None? ==> forall c: Command :: name != LongName(c) && name != ShortName(c)
  {
    if name == "-a" || name == "add" then Some(Add)
    else if name == "-l" || name == "list" then Some(List)
    else if name == "-r" || name == "remove" then Some(Remove)
    else if name == "-u" || name == "update" then Some(Update)
    else if name == "-c" || name == "complete" then Some(MarkComplete)
    else if name == "-i" || name == "incomplete" then Some(MarkIncomplete)
    else if name == "-p" || name == "progress" then Some(MarkProgress)
    else if name == "-lc" || name == "list-complete" then Some(ListComplete)
    else if name == "-li" || name == "list-incomplete" then Some(ListIncomplete)
    else if name == "-lp" || name == "list-progress" then Some(ListProgress)
    else if name == "-e" || name == "export" then Some(Export)
    else if name == "-h" || name == "help" then Some(Help)
    else None
  }

  /** Each command's two names select that command and no other. */
  lemma NamesSelectTheirCommand(c: Command)
    ensures CommandNamed(LongName(c)) == Some(c)
    ensures CommandNamed(ShortName(c)) == Some(c)
  {
  }

  /** The handler a command runs, on the loaded list and the arguments after the command name. */
  function Handle(c: Command, tasks: seq<Task>, args: seq<string>): (r: Result<Reply, Error>)
    ensures r.Ok? && r.value.Saved? ==> WellNumbered(r.value.change.store)
    ensures r.Ok? && r.value.Exported? ==> WellNumbered(r.value.store) && SameContent(tasks, r.value.store)
    ensures r.Ok? && r.value.Shown? ==> forall t :: t in r.value.listed ==> t in tasks
    ensures r.Err? ==> r.error != NoArguments && r.error != NoCommand && r.error != InvalidCommand
    ensures c == Update ==> r.Err? && r == AsSaved(UpdateTask(tasks, args))
    ensures c == Add ==> r == AsSaved(AddTask(tasks, args))
    ensures c == List ==> r == Ok(Shown(tasks))
    ensures c == Remove ==> r == AsSaved(RemoveTask(tasks, args))
    ensures c == MarkComplete ==> r == AsSaved(MarkStatus(tasks, args, Complete))
    ensures c == MarkIncomplete ==> r == AsSaved(MarkStatus(tasks, args, Incomplete))
    ensures c == MarkProgress ==> r == AsSaved(MarkStatus(tasks, args, InProgress))
    ensures c == ListComplete ==> r == Ok(Shown(Filter(tasks, Complete)))
    ensures c == ListIncomplete ==> r == Ok(Shown(Filter(tasks, Incomplete)))
    ensures c == ListProgress ==> r == Ok(Shown(Filter(tasks, InProgress)))
    ensures c == Export ==> r == Ok(Exported(Renumber(tasks)))
    ensures c == Help ==> r == Ok(HelpShown)
  {
    match c
    case Add => AsSaved(AddTask(tasks, args))
    case List => Ok(Shown(tasks))
    case Remove => AsSaved(RemoveTask(tasks, args))
    case Update => AsSaved(UpdateTask(tasks, args))
    case MarkComplete => AsSaved(MarkStatus(tasks, args, Complete))
    case MarkIncomplete => AsSaved(MarkStatus(tasks, args, Incomplete))
    case MarkProgress => AsSaved(MarkStatus(tasks, args, InProgress))
    case ListComplete => Ok(Shown(Filter(tasks, Complete)))
    case ListIncomplete => Ok(Shown(Filter(tasks, Incomplete)))
    case ListProgress => Ok(Shown(Filter(tasks, InProgress)))
    case Export => Ok(Exported(Renumber(tasks)))
    case Help => Ok(HelpShown)
  }

  /**
   * `create_parser` on `sys.argv[1:]`: no first argument, an empty one, and
   * an unknown one each raise; otherwise the named command runs on the
   * remaining arguments.
   */
  function Dispatch(tasks: seq<Task>, argv: seq<string>): (r: Result<Reply, Error>)
    ensures |argv| == 0 ==> r == Err(NoCommand)
    ensures |argv| > 0 && argv[0] == "" ==> r == Err(NoArguments)
    ensures |argv| > 0 && argv[0] != "" ==>
      (r == Err(InvalidCommand) <==> forall c: Command :: argv[0] != LongName(c) && argv[0] != ShortName(c))
    ensures r.Ok? && r.value.Saved? ==> WellNumbered(r.value.change.store)
    ensures r.Ok? && r.value.Exported? ==> WellNumbered(r.value.store)
  {
    if |argv| == 0 then Err(NoCommand)
    else if |argv[0]| == 0 then Err(NoArguments)
    else
      match CommandNamed(argv[0])
      case None => Err(InvalidCommand)
      case Some(c) => Handle(c, tasks, argv[1..])
  }

  /** Either name of a command runs exactly that command's handler on the remaining arguments. */
  lemma DispatchRoutes(tasks: seq<Task>, argv: seq<string>, c: Command)
    requires |argv| > 0 && (argv[0] == LongName(c) || argv[0] == ShortName(c))
    ensures Dispatch(tasks, argv) == Handle(c, tasks, argv[1..])
  {
    NamesSelectTheirCommand(c);
  }

  /** One invocation: load, renumber (as `__init__` does), then dispatch. */
  function Session(j: Json, argv: seq<string>): (r: Result<Reply, Error>)
    ensures |argv| == 0 ==> r == Err(NoCommand)
    ensures |argv| > 0 && argv[0] == "" ==> r == Err(NoArguments)
    ensures |argv| > 0 && argv[0] != "" && CommandNamed(argv[0]).None? ==> r == Err(InvalidCommand)
    ensures r.Ok? && r.value.Saved? ==> WellNumbered(r.value.change.store)
    ensures |argv| > 0 && CommandNamed(argv[0]).Some? ==>
      r == Handle(CommandNamed(argv[0]).value, Renumber(Load(j).tasks), argv[1..])
    ensures Load(j).notice.None? && |argv| > 0 && CommandNamed(argv[0]) == Some(List) ==>
      r == Ok(Shown(Renumber(Load(j).tasks)))
    ensures Load(j).notice.Some? && |argv| > 0 && CommandNamed(argv[0]) == Some(List) ==> r == Ok(Shown([]))
  {
    Dispatch(Renumber(Load(j).tasks), argv)
  }

  /** An `add` run writes the loaded list, renumbered, with the new task after it. */
  lemma SessionAddWrites(j: Json, d: string)
    ensures var loaded := Renumber(Load(j).tasks);
      && Session(j, ["add", d]).Ok?
      && Written(Session(j, ["add", d]).value) == Some(JObject(Some(loaded + [Task(|loaded| + 1, d, Incomplete)])))
  {
    var loaded := Renumber(Load(j).tasks);
    DispatchRoutes(loaded, ["add", d], Add);
    assert ["add", d][1..] == [d];
    AddKeepsEarlierTasks(loaded, d);
    RenumberKeepsWellNumbered(loaded + [Task(|loaded| + 1, d, Incomplete)]);
  }
}

=== FILE: legacy.dfy ===
/**
 * The older argparse tracker, todoi.py: the same record operations with
 * no argument checks, a loader that insists on {"tasks": [...]}, and a
 * fixed priority among the flags.
 */
module Legacy {
  import opened Results
  import opened PyText
  import opened Tasks
  import opened Store

  /** The exceptions that escape; nothing is caught, so each ends the run with a traceback. */
  datatype Error =
    | DecodeError       // json.JSONDecodeError from json.load
    | NotSubscriptable  // TypeError: a list or scalar subscripted with "tasks"
    | MissingTasksKey   // KeyError: 'tasks'
    | NotAnInteger      // ValueError from int()
    | ListIndexError    // IndexError from tasks[index] or tasks.pop(index)

  // ---------------------------------------------------------------- loading

  /** `read_from_file`: only an object with a "tasks" field loads; everything else raises. */
  function Load(j: Json): (r: Result<seq<Task>, Error>)
    ensures r.Ok? <==> j.JObject? && j.tasksField.Some?
    ensures r.Ok? ==> r.value == j.tasksField.value
    ensures j.JList? ==> r == Err(NotSubscriptable)
    ensures j.Unparsable? ==> r == Err(DecodeError)
    ensures j == JObject(None) ==> r == Err(MissingTasksKey)
    ensures j.JOther? ==> r == Err(NotSubscriptable)
  {
    match j
    case JObject(Some(ts)) => Ok(ts)
    case JObject(None) => Err(MissingTasksKey)
    case JList(_) => Err(NotSubscriptable)
    case JOther => Err(NotSubscriptable)
    case Unparsable => Err(DecodeError)
  }

  /** What `export_tasks` writes loads back as the renumbered list. */
  lemma SaveThenLoad(ts: seq<Task>)
    ensures Load(Save(ts)) == Ok(Renumber(ts))
  {
  }

  /**
   * `checkFile` writes a bare empty array, which `read_from_file` then
   * rejects: on a fresh directory every run fails before its command.
   */
  lemma FreshFileFailsToLoad()
    ensures Load(FreshFile) == Err(NotSubscriptable)
  {
  }

  /** The initial file `checkFile` evidently meant to write: the shape `export_tasks` writes. */
  function FreshFileIntended(): (j: Json)
    ensures Load(j) == Ok([])
    ensures j == Save([])
  {
    JObject(Some([]))
  }

  // ---------------------------------------------------------------- handlers

  /** `int(arg) - 1` as a Python subscript of the list; no sign or bound checks of its own. */
  function ResolveIndex(tasks: seq<Task>, arg: string): (r: Result<nat, Error>)
    ensures r == Err(NotAnInteger) <==> ParseInt(arg).None?
    ensures r.Ok? <==> ParseInt(arg).Some? && -(|tasks| as int) < ParseInt(arg).value <= |tasks|
    ensures ParseInt(arg).Some? && r.Err? ==> r == Err(ListIndexError)
    ensures r.Ok? ==> r.value < |tasks|
    ensures r.Ok? && ParseInt(arg).value >= 1 ==> r.value == ParseInt(arg).value - 1
    ensures r.Ok? && ParseInt(arg).value <= 0 ==> r.value == |tasks| + ParseInt(arg).value - 1
  {
    match ParseInt(arg)
    case None => Err(NotAnInteger)
    case Some(n) =>
      match PyIndex(|tasks|, n - 1)
      case None => Err(ListIndexError)
      case Some(k) => Ok(k)
  }

  /** `cmd_add`: append an incomplete task with the next id; no check on the description. */
  function AddTask(tasks: seq<Task>, description: string): (c: Change)
    ensures |c.store| == |tasks| + 1
    ensures WellNumbered(c.store)
    ensures SameContent(tasks, c.store[..|tasks|])
    ensures c.store[|tasks|] == Task(|tasks| + 1, description, Incomplete)
    ensures c.confirmed == |tasks| + 1
  {
    Change(Renumber(Append(tasks, description)), |tasks| + 1)
  }

  /** `cmd_mark_*`: write the status at `int(arg) - 1`, export, and confirm with `int(arg)`. */
  function MarkStatus(tasks: seq<Task>, arg: string, s: Status): (r: Result<Change, Error>)
    ensures r.Ok? <==> ResolveIndex(tasks, arg).Ok?
    ensures r.Err? ==> ResolveIndex(tasks, arg) == Err(r.error)
    ensures r.Ok? ==>
      && WellNumbered(r.value.store)
      && OnlyStatusChanged(tasks, r.value.store, ResolveIndex(tasks, arg).value, s)
      && r.value.confirmed == ParseInt(arg).value
  {
    match ResolveIndex(tasks, arg)
    case Err(e) => Err(e)
    case Ok(k) => Ok(Change(Renumber(SetStatusAt(tasks, k, s)), ParseInt(arg).value))
  }

  /** `cmd_remove`: pop at `int(arg) - 1`, export the rest, and confirm with the popped id. */
  function RemoveTask(tasks: seq<Task>, arg: string): (r: Result<Change, Error>)
    ensures ParseInt(arg).None? ==> r == Err(NotAnInteger)
    ensures r.Ok? <==> ParseInt(arg).Some? && -(|tasks| as int) < ParseInt(arg).value <= |tasks|
    ensures ParseInt(arg).Some? && r.Err? ==> r.error == ListIndexError
    ensures r.Ok? ==>
      && |r.value.store| == |tasks| - 1
      && WellNumbered(r.value.store)
      && SameContent(RemoveAt(tasks, ResolveIndex(tasks, arg).value), r.value.store)
      && r.value.confirmed == tasks[ResolveIndex(tasks, arg).value].id
  {
    match ResolveIndex(tasks, arg)
    case Err(e) => Err(e)
    case Ok(k) => Ok(Change(Renumber(RemoveAt(tasks, k)), tasks[k].id))
  }

  /**
   * `cmd_update`: replace the description at `int(arg) - 1` with the text
   * typed at the prompt, export, and confirm with that record's new id.
   */
  function UpdateTask(tasks: seq<Task>, arg: string, newDescription: string): (r: Result<Change, Error>)
    ensures r.Ok? <==> ResolveIndex(tasks, arg).Ok?
    ensures r.Err? ==> ResolveIndex(tasks, arg) == Err(r.error)
    ensures r.Ok? ==>
      && WellNumbered(r.value.store)
      && OnlyDescriptionChanged(tasks, r.value.store, ResolveIndex(tasks, arg).value, newDescription)
      && r.value.confirmed == ResolveIndex(tasks, arg).value + 1
  {
    match ResolveIndex(tasks, arg)
    case Err(e) => Err(e)
    case Ok(k) => Ok(Change(Renumber(SetDescriptionAt(tasks, k, newDescription)), k + 1))
  }

  /** Updating a task and then typing its old description back restores the list. */
  lemma UpdateUndone(tasks: seq<Task>, arg: string, newDescription: string)
    requires WellNumbered(tasks)
    requires UpdateTask(tasks, arg, newDescription).Ok?
    ensures var k := ResolveIndex(tasks, arg).value;
      var once := UpdateTask(tasks, arg, newDescription).value.store;
      UpdateTask(once, arg, tasks[k].description) == Ok(Change(tasks, k + 1))
  {
    var k := ResolveIndex(tasks, arg).value;
    var once := UpdateTask(tasks, arg, newDescription).value.store;
    RenumberKeepsWellNumbered(SetDescriptionAt(tasks, k, newDescription));
    assert SetDescriptionAt(once, k, tasks[k].description) == tasks;
    RenumberKeepsWellNumbered(tasks);
  }

  /** Removing a task and putting it back where it was restores the content of the list. */
  lemma RemoveThenReinsert(tasks: seq<Task>, arg: string)
    requires RemoveTask(tasks, arg).Ok?
    ensures var k := ResolveIndex(tasks, arg).value;
      var rest := RemoveTask(tasks, arg).value.store;
      SameContent(rest[..k] + [tasks[k]] + rest[k..], tasks)
  {
    var k := ResolveIndex(tasks, arg).value;
    ReinsertKeepsContent(tasks, k, RemoveTask(tasks, arg).value.store);
  }

  // ---------------------------------------------------------------- dispatch

  /** The parsed argparse namespace: a string per valued flag (None when absent), a bool for --list. */
  datatype Flags = Flags(
    add: Option<string>,
    list: bool,
    remove: Option<string>,
    update: Option<string>,
    complete: Option<string>,
    incomplete: Option<string>,
    progress: Option<string>)

  /** A valued flag is taken when it is present and non-empty: Python truthiness of the string. */
  predicate Given(flag: Option<string>)
  {
    flag.Some? && flag.value != ""
  }

  /** The command `execute_command` runs. */
  datatype Action =
    | DoAdd(description: string)
    | DoList
    | DoRemove(arg: string)
    | DoUpdate(arg: string)
    | DoMark(arg: string, status: Status)
    | DoHelp

  /** Every action the flags ask for, in the order `execute_command` tests them. */
  function Requested(f: Flags): seq<Action>
  {
    (if Given(f.add) then [DoAdd(f.add.value)] else [])
    + (if f.list then [DoList] else [])
    + (if Given(f.remove) then [DoRemove(f.remove.value)] else [])
    + (if Given(f.update) then [DoUpdate(f.update.value)] else [])
    + (if Given(f.complete) then [DoMark(f.complete.value, Complete)] else [])
    + (if Given(f.incomplete) then [DoMark(f.incomplete.value, Incomplete)] else [])
    + (if Given(f.progress) then [DoMark(f.progress.value, InProgress)] else [])
  }

  /** `execute_command`: the first requested action wins; with none requested, help. */
  function Select(f: Flags): (a: Action)
    ensures |Requested(f)| == 0 <==> a == DoHelp
    ensures |Requested(f)| > 0 ==> a == Requested(f)[0]
  {
    if Given(f.add) then DoAdd(f.add.value)
    else if f.list then DoList
    else if Given(f.remove) then DoRemove(f.remove.value)
    else if Given(f.update) then DoUpdate(f.update.value)
    else if Given(f.complete) then DoMark(f.complete.value, Complete)
    else if Given(f.incomplete) then DoMark(f.incomplete.value, Incomplete)
    else if Given(f.progress) then DoMark(f.progress.value, InProgress)
    else DoHelp
  }

  /** Run one action on the loaded list; `newDescription` is what the update prompt reads. */
  function Execute(tasks: seq<Task>, a: Action, newDescription: string): (r: Result<Reply, Error>)
    ensures r.Ok? && r.value.Saved? ==> WellNumbered(r.value.change.store)
    ensures r.Ok? && r.value.Shown? ==> r.value.listed == tasks
    ensures a.DoAdd? || a.DoList? || a.DoHelp? ==> r.Ok?
    ensures r.Err? ==> r.error == NotAnInteger || r.error == ListIndexError
    ensures a.DoAdd? ==> r == Ok(Saved(AddTask(tasks, a.description)))
    ensures a.DoRemove? ==> r == AsSaved(RemoveTask(tasks, a.arg))
    ensures a.DoUpdate? ==> r == AsSaved(UpdateTask(tasks, a.arg, newDescription))
    ensures a.DoMark? ==> r == AsSaved(MarkStatus(tasks, a.arg, a.status))
    ensures a == DoList ==> r == Ok(Shown(tasks))
    ensures a == DoHelp ==> r == Ok(HelpShown)
  {
    match a
    case DoAdd(d) => Ok(Saved(AddTask(tasks, d)))
    case DoList => Ok(Shown(tasks))
    case DoRemove(arg) => AsSaved(RemoveTask(tasks, arg))
    case DoUpdate(arg) => AsSaved(UpdateTask(tasks, arg, newDescription))
    case DoMark(arg, s) => AsSaved(MarkStatus(tasks, arg, s))
    case DoHelp => Ok(HelpShown)
  }

  /** One invocation: load (which may raise), renumber, then run the selected action. */
  function Session(j: Json, f: Flags, newDescription: string): (r: Result<Reply, Error>)
    ensures Load(j).Err? ==> r == Err(Load(j).error)
    ensures r.Ok? && r.value.Saved? ==> WellNumbered(r.value.change.store)
    ensures Load(j).Ok? ==> r == Execute(Renumber(Load(j).value), Select(f), newDescription)
    ensures Load(j).Ok? && Select(f) == DoList ==> r == Ok(Shown(Renumber(Load(j).value)))
    ensures Load(j).Ok? && Select(f) == DoHelp ==> r == Ok(HelpShown)
    ensures Load(j).Ok? && Select(f).DoAdd? ==>
      && r.Ok? && r.value.Saved?
      && |r.value.change.store| == |Load(j).value| + 1
      && SameContent(Load(j).value, r.value.change.store[..|Load(j).value|])
      && r.value.change.store[|Load(j).value|].description == Select(f).description
  {
    match Load(j)
    case Err(e) => Err(e)
    case Ok(ts) => Execute(Renumber(ts), Select(f), newDescription)
  }
}

=== FILE: pytext.dfy ===
/**
 * The few Python built-ins the tracker leans on, over ASCII text:
 * `str.isdigit`, `int(...)`, `str(n)` and list subscripting with
 * negative indices.
 */
module PyText {
  import opened Results

  predicate IsAsciiDigit(c: char)
  {
    '0' <= c <= '9'
  }

  /** Every character is a decimal digit (the empty string qualifies). */
  predicate AllDigits(s: string)
  {
    forall i :: 0 <= i < |s| ==> IsAsciiDigit(s[i])
  }

  /** `s.isdigit()`: non-empty and made of digits only; a sign is not a digit. */
  predicate IsDigits(s: string): (b: bool)
    ensures b <==> |s| > 0 && IsAsciiDigit(s[0]) && AllDigits(s[1..])
    ensures b ==> s[0] != '-' && s[0] != '+'
  {
    |s| > 0 && AllDigits(s)
  }

  function Power10(n: nat): (p: nat)
    ensures p >= 1
  {
    if n == 0 then 1 else 10 * Power10(n - 1)
  }

  /** `int(s)` on a digit string: its value in base ten, which fits in |s| digits. */
  function DigitsValue(s: string): (v: nat)
    requires AllDigits(s)
    ensures v < Power10(|s|)
  {
    if |s| == 0 then 0
    else 10 * DigitsValue(s[..|s| - 1]) + (s[|s| - 1] as int - '0' as int)
  }

  /** Leading zeros do not change the value: `int("007") == 7`. */
  lemma {:induction false} LeadingZeroIgnored(s: string)
    requires AllDigits(s)
    ensures AllDigits("0" + s) && DigitsValue("0" + s) == DigitsValue(s)
  {
    if |s| > 0 {
      var z := "0" + s;
      assert z[..|z| - 1] == "0" + s[..|s| - 1];
      assert z[|z| - 1] == s[|s| - 1];
      LeadingZeroIgnored(s[..|s| - 1]);
    }
  }

  function DigitChar(d: nat): (c: char)
    requires d < 10
    ensures IsAsciiDigit(c)
    ensures c as int - '0' as int == d
  {
    ('0' as int + d) as char
  }

  /** `str(n)` for a non-negative integer: its shortest decimal spelling. */
  function NatText(n: nat): (s: string)
    ensures IsDigits(s)
    ensures |s| > 1 ==> s[0] != '0'
  {
    if n < 10 then [DigitChar(n)] else NatText(n / 10) + [DigitChar(n % 10)]
  }

  /** Reading back what `str` wrote gives the number again. */
  lemma {:induction false} NatTextRoundTrip(n: nat)
    ensures DigitsValue(NatText(n)) == n
  {
    if n >= 10 {
      var s := NatText(n);
      assert s[..|s| - 1] == NatText(n / 10);
      NatTextRoundTrip(n / 10);
    }
  }

  /** `int(s)` on a sign and ASCII digits; `None` where Python raises ValueError. */
  function ParseInt(s: string): (r: Option<int>)
    ensures r.Some? <==> IsDigits(s) || (|s| > 0 && (s[0] == '-' || s[0] == '+') && IsDigits(s[1..]))
    ensures IsDigits(s) ==> r == Some(DigitsValue(s))
    ensures |s| > 0 && s[0] == '-' && IsDigits(s[1..]) ==> r == Some(-(DigitsValue(s[1..]) as int))
    ensures |s| > 0 && s[0] == '+' && IsDigits(s[1..]) ==> r == Some(DigitsValue(s[1..]) as int)
    ensures r.Some? && r.value < 0 ==> s[0] == '-'
  {
    if |s| > 0 && (s[0] == '-' || s[0] == '+') then
      if IsDigits(s[1..]) then
        Some(if s[0] == '-' then -(DigitsValue(s[1..]) as int) else DigitsValue(s[1..]))
      else None
    else if IsDigits(s) then Some(DigitsValue(s))
    else None
  }

  /** `str(i)` for any integer. */
  function IntText(i: int): (s: string)
    ensures |s| > 0
    ensures s[0] == '-' <==> i < 0
    ensures i >= 0 ==> IsDigits(s)
    ensures i < 0 ==> IsDigits(s[1..])
  {
    if i < 0 then "-" + NatText(-i) else NatText(i)
  }

  /** `int(str(i)) == i`. */
  lemma IntTextRoundTrip(i: int)
    ensures ParseInt(IntText(i)) == Some(i)
  {
    if i < 0 {
      assert IntText(i)[1..] == NatText(-i);
      NatTextRoundTrip(-i);
    } else {
      NatTextRoundTrip(i);
    }
  }

  /**
   * The element `xs[i]` denotes in Python for a list of length `len`:
   * negative subscripts count from the end; `None` where Python raises
   * IndexError.
   */
  function PyIndex(len: nat, i: int): (r: Option<nat>)
    ensures r.Some? <==> -(len as int) <= i < len
    ensures r.Some? ==> r.value < len
    ensures r.Some? && i >= 0 ==> r.value == i
    ensures r.Some? && i < 0 ==> len - r.value == -i
  {
    if 0 <= i < len then Some(i)
    else if -(len as int) <= i < 0 then Some(len + i)
    else None
  }
}

=== FILE: results.dfy ===
/** The failure-carrying wrappers shared by every module of the model. */
module Results {

  /** A value that may be absent: a missing JSON key, an unparsable integer. */
  datatype Option<+T> = None | Some(value: T)

  /** The outcome of a handler: a value, or the error the program raises. */
  datatype Result<+T, +E> = Ok(value: T) | Err(error: E)
}

=== FILE: store.dfy ===
/**
 * The persistence file, tasks.json, as the loaders see it once `json.load`
 * has run, and what one invocation of the tracker hands back.
 */
module Store {
  import opened Results
  import opened Tasks

  /**
   * The shapes of a parsed tasks.json the loaders tell apart. Record-level
   * JSON is abstracted: a list of records is already a list of tasks.
   */
  datatype Json =
    | JList(items: seq<Task>)                 // a bare array of records
    | JObject(tasksField: Option<seq<Task>>)  // an object, with or without a "tasks" key
    | JOther                                  // a string, number, boolean or null
    | Unparsable                              // text that `json.load` rejects

  /** `export_tasks`: renumber the list, then write it as {"tasks": [...]}. */
  function Save(ts: seq<Task>): (j: Json)
    ensures j.JObject? && j.tasksField.Some?
    ensures WellNumbered(j.tasksField.value)
    ensures SameContent(ts, j.tasksField.value)
  {
    JObject(Some(Renumber(ts)))
  }

  /** `checkFile`: what is written when tasks.json does not exist yet. */
  const FreshFile: Json := JList([])

  /** A mutation that was written back: the renumbered list and the number its confirmation line shows. */
  datatype Change = Change(store: seq<Task>, confirmed: int)

  /** What one invocation does once its command has been chosen. */
  datatype Reply =
    | Saved(change: Change)        // a mutating command ran and exported the list
    | Exported(store: seq<Task>)   // `export`: the list was written back unchanged but renumbered
    | Shown(listed: seq<Task>)     // a listing, no write
    | HelpShown                    // the help text, no write

  /** A handler's change as the reply of the whole invocation; errors pass through. */
  function AsSaved<E>(r: Result<Change, E>): (reply: Result<Reply, E>)
    ensures reply.Ok? <==> r.Ok?
    ensures r.Ok? ==> reply.value.Saved? && reply.value.change == r.value
    ensures r.Err? ==> reply.error == r.error
  {
    match r
    case Ok(c) => Ok(Saved(c))
    case Err(e) => Err(e)
  }

  /** The file content an invocation leaves behind, if it writes one. */
  function Written(reply: Reply): Option<Json>
  {
    match reply
    case Saved(c) => Some(Save(c.store))
    case Exported(ts) => Some(Save(ts))
    case _ => None
  }
}

=== FILE: tasks.dfy ===
/**
 * Task records and the positional edits both versions of the tracker
 * perform on the in-memory list: renumbering, appending, writing one
 * field, popping one element, and filtering by status.
 */
module Tasks {

  /** The three values of a record's "status" field. */
  datatype Status = Incomplete | InProgress | Complete

  /** The exact text stored in the "status" field of tasks.json. */
  function StatusText(s: Status): string
  {
    match s
    case Incomplete => "incomplete"
    case InProgress => "in progress"
    case Complete => "complete"
  }

  /** One record: {"id": ..., "description": ..., "status": ...}. */
  datatype Task = Task(id: int, description: string, status: Status)

  /** The id invariant: every record's id is its 1-based position. */
  predicate WellNumbered(ts: seq<Task>)
  {
    forall i :: 0 <= i < |ts| ==> ts[i].id == i + 1
  }

  /** Same descriptions and statuses in the same order; ids may differ. */
  predicate SameContent(a: seq<Task>, b: seq<Task>)
  {
    && |a| == |b|
    && forall i :: 0 <= i < |a| ==> a[i].description == b[i].description && a[i].status == b[i].status
  }

  /** The list `update_tasks_id` leaves behind: ids rewritten from positions, nothing else touched. */
  function Renumber(ts: seq<Task>): (r: seq<Task>)
    ensures WellNumbered(r)
    ensures SameContent(ts, r)
  {
    seq(|ts|, i requires 0 <= i < |ts| => ts[i].(id := i + 1))
  }

  /** The id invariant and the content determine the list: Renumber is the only such list. */
  lemma RenumberUnique(ts: seq<Task>, r: seq<Task>)
    requires WellNumbered(r) && SameContent(ts, r)
    ensures r == Renumber(ts)
  {
  }

  /** Renumbering a list that already keeps the invariant changes nothing. */
  lemma RenumberKeepsWellNumbered(ts: seq<Task>)
    requires WellNumbered(ts)
    ensures Renumber(ts) == ts
  {
    RenumberUnique(ts, ts);
  }

  /** `update_tasks_id` as the source writes it: one in-place id write per position. */
  method UpdateTasksId(ts: seq<Task>) returns (r: seq<Task>)
    ensures WellNumbered(r)
    ensures SameContent(ts, r)
    ensures r == Renumber(ts)
  {
    r := ts;
    for i := 0 to |r|
      invariant |r| == |ts|
      invariant forall j :: 0 <= j < i ==> r[j].id == j + 1
      invariant SameContent(ts, r)
    {
      r := r[i := r[i].(id := i + 1)];
    }
    RenumberUnique(ts, r);
  }

  /** The list after appending a new incomplete task with the next id. */
  function Append(ts: seq<Task>, description: string): (r: seq<Task>)
    ensures |r| == |ts| + 1
    ensures r[..|ts|] == ts
    ensures r[|ts|] == Task(|ts| + 1, description, Incomplete)
    ensures WellNumbered(ts) ==> WellNumbered(r)
  {
    ts + [Task(|ts| + 1, description, Incomplete)]
  }

  /** Only the status of element k differs between `before` and `after`; it now reads s. */
  predicate OnlyStatusChanged(before: seq<Task>, after: seq<Task>, k: nat, s: Status)
  {
    && |before| == |after|
    && k < |after|
    && after[k].status == s
    && (forall j :: 0 <= j < |before| ==> after[j].description == before[j].description)
    && (forall j :: 0 <= j < |before| && j != k ==> after[j].status == before[j].status)
  }

  /** Only the description of element k differs between `before` and `after`; it now reads d. */
  predicate OnlyDescriptionChanged(before: seq<Task>, after: seq<Task>, k: nat, d: string)
  {
    && |before| == |after|
    && k < |after|
    && after[k].description == d
    && (forall j :: 0 <= j < |before| ==> after[j].status == before[j].status)
    && (forall j :: 0 <= j < |before| && j != k ==> after[j].description == before[j].description)
  }

  /** `tasks[k]["status"] = s`. */
  function SetStatusAt(ts: seq<Task>, k: nat, s: Status): (r: seq<Task>)
    requires k < |ts|
    ensures OnlyStatusChanged(ts, r, k, s)
    ensures forall j :: 0 <= j < |ts| ==> r[j].id == ts[j].id
  {
    ts[k := ts[k].(status := s)]
  }

  /** `tasks[k]["description"] = d`. */
  function SetDescriptionAt(ts: seq<Task>, k: nat, d: string): (r: seq<Task>)
    requires k < |ts|
    ensures OnlyDescriptionChanged(ts, r, k, d)
    ensures forall j :: 0 <= j < |ts| ==> r[j].id == ts[j].id
  {
    ts[k := ts[k].(description := d)]
  }

  /** `tasks.pop(k)`: the list without element k, the others in their old order. */
  function RemoveAt(ts: seq<Task>, k: nat): (r: seq<Task>)
    requires k < |ts|
    ensures |r| == |ts| - 1
    ensures forall j :: 0 <= j < k ==> r[j] == ts[j]
    ensures forall j :: k <= j < |r| ==> r[j] == ts[j + 1]
  {
    ts[..k] + ts[k + 1..]
  }

  /** Putting the popped element back where it was restores the list. */
  lemma RemoveAtUndone(ts: seq<Task>, k: nat)
    requires k < |ts|
    ensures RemoveAt(ts, k)[..k] + [ts[k]] + RemoveAt(ts, k)[k..] == ts
  {
    var r := RemoveAt(ts, k);
    var back := r[..k] + [ts[k]] + r[k..];
    forall j | 0 <= j < |ts|
      ensures back[j] == ts[j]
    {
      if j > k {
        assert back[j] == r[j - 1];
      }
    }
  }

  /** Any list with the content of `RemoveAt(ts, k)` gets back the content of ts when ts[k] is put back at k. */
  lemma ReinsertKeepsContent(ts: seq<Task>, k: nat, rest: seq<Task>)
    requires k < |ts| && SameContent(RemoveAt(ts, k), rest)
    ensures SameContent(rest[..k] + [ts[k]] + rest[k..], ts)
  {
    var removed := RemoveAt(ts, k);
    var back := rest[..k] + [ts[k]] + rest[k..];
    forall j | 0 <= j < |ts|
      ensures back[j].description == ts[j].description && back[j].status == ts[j].status
    {
      if j > k {
        assert back[j] == rest[j - 1] && removed[j - 1] == ts[j];
      }
    }
  }

  /** Distinct statuses have distinct texts, so comparing the stored strings is comparing statuses. */
  lemma StatusTextInjective(a: Status, b: Status)
    ensures StatusText(a) == StatusText(b) <==> a == b
  {
  }

  /**
   * The tasks whose status is s, in list order (the `cmd_list_*` loops,
   * which test `task["status"] == StatusText(s)`; see StatusTextInjective).
   */
  function Filter(ts: seq<Task>, s: Status): (r: seq<Task>)
    ensures |r| <= |ts|
    ensures forall t :: t in r ==> t in ts && t.status == s
    ensures forall i :: 0 <= i < |ts| && ts[i].status == s ==> ts[i] in r
  {
    if |ts| == 0 then []
    else if ts[0].status == s then [ts[0]] + Filter(ts[1..], s)
    else Filter(ts[1..], s)
  }

  /** Filtering distributes over concatenation, so it keeps list order. */
  lemma {:induction false} FilterAppend(a: seq<Task>, b: seq<Task>, s: Status)
    ensures Filter(a + b, s) == Filter(a, s) + Filter(b, s)
  {
    if |a| == 0 {
      assert a + b == b;
    } else {
      assert (a + b)[1..] == a[1..] + b;
      FilterAppend(a[1..], b, s);
    }
  }

  /** Every task is listed by exactly one of the three status filters. */
  lemma {:induction false} FilterPartition(ts: seq<Task>)
    ensures |Filter(ts, Incomplete)| + |Filter(ts, InProgress)| + |Filter(ts, Complete)| == |ts|
  {
    if |ts| > 0 {
      FilterPartition(ts[1..]);
    }
  }

  /** Lists with the same content list the same number of tasks under every status. */
  lemma {:induction false} FilterCountIgnoresIds(a: seq<Task>, b: seq<Task>, s: Status)
    requires SameContent(a, b)
    ensures |Filter(a, s)| == |Filter(b, s)|
  {
    if |a| > 0 {
      FilterCountIgnoresIds(a[1..], b[1..], s);
    }
  }

  /** Setting a status adds the task to that status's listing unless it was already there. */
  lemma FilterAfterSetStatus(ts: seq<Task>, k: nat, s: Status)
    requires k < |ts|
    ensures |Filter(SetStatusAt(ts, k, s), s)| == |Filter(ts, s)| + (if ts[k].status == s then 0 else 1)
    ensures SetStatusAt(ts, k, s)[k] in Filter(SetStatusAt(ts, k, s), s)
  {
    var r := SetStatusAt(ts, k, s);
    assert ts == ts[..k] + [ts[k]] + ts[k + 1..];
    assert r == ts[..k] + [r[k]] + ts[k + 1..];
    FilterAppend(ts[..k] + [ts[k]], ts[k + 1..], s);
    FilterAppend(ts[..k], [ts[k]], s);
    FilterAppend(ts[..k] + [r[k]], ts[k + 1..], s);
    FilterAppend(ts[..k], [r[k]], s);
  }
}
